=== FILE: README.md ===
# brotli-asgi response compression, modelled in Dafny

This project models the ASGI middleware that Brotli-compresses HTTP responses.

**Negotiation gate.** `BrotliMiddleware` decides, per connection, whether the application's `send` channel is wrapped. It wraps the channel only for HTTP scopes whose `Accept-Encoding` contains `"br"`.

**Interceptor.** `BrotliResponder.send_with_brotli` is the interceptor:
- It holds the `http.response.start` message back.
- On the first body message it takes one of three paths:
  - passes a small final body through;
  - compresses a large final body in one shot;
  - starts a compressed stream.
- It rewrites the response headers to match the path it took.
- It compresses every later chunk with the streaming compressor, emptying its scratch buffer after every emission.

**Modules:**
- `Base`: bytes, `Option` and `Result`.
- `Strings`: ASCII case folding, the substring test and decimal rendering.
- `Headers`: the header operations the middleware calls.
- `Brotli`: the codec, passed in as a parameter.
- `BrotliResponder`: the interceptor as a pure step function over an explicit state record.
- `BrotliMiddleware`: the entry point.
- `ResponseProperties`: what happens to a whole response.

**The codec is a parameter.** The Brotli library is foreign code. It appears as a `Codec` record of functions:
- one-shot compress;
- per-call output of a streaming compressor, as a function of its settings and its call history;
- decompress.

The predicate `Sound(codec)` states the library's round-trip guarantees. The lemmas that rely on them take it as a hypothesis. `StoredCodec` is a concrete codec that meets `Sound`, which shows the hypothesis can be satisfied.

## Model

| member | source | states |
|---|---|---|
| BrotliMiddleware.Dispatch | brotli_middleware.py:17-24 | The application is wrapped exactly when the scope type is "http" and "br" occurs as a substring of `Accept-Encoding` (an absent header counts as ""). A wrapping always uses a fresh responder built from the middleware's quality and minimum size. |
| BrotliMiddleware.SubstringNegotiation | brotli_middleware.py:18-20 | The `Accept-Encoding` test is a substring test, not a header parse. An HTTP request with `gzip, br;q=0`, which refuses Brotli, is still wrapped. A non-HTTP scope with the same headers is not. |
| BrotliMiddleware.Serve | brotli_middleware.py:17-24 | A connection that is not engaged gets the application's messages unchanged. An engaged one gets exactly what a fresh interceptor emits for them, or the interceptor's failure. Either way the body messages carry the same `more_body` flags in the same order. |
| BrotliMiddleware.ServedShape | brotli_middleware.py:17-24 | At the entry point, on any connection, a well-formed response arrives with the same message count, the start message first with its status, and the body messages in order with their flags. The only failure is one-shot compression raising on an engaged connection. |
| BrotliMiddleware.ServedContent | brotli_middleware.py:17-24 | At the entry point, on an engaged connection:<br>- A small final body arrives exactly as sent.<br>- A large final body arrives with `Content-Encoding: br` and, with a sound codec, decodes to the original.<br>- A streamed response always succeeds. It carries `Content-Encoding: br` and no `Content-Length`, and with a sound codec its body decodes to the concatenated chunks. |
| BrotliResponder.NewResponder | brotli_middleware.py:28-38 | A fresh responder is not started, holds no start message and has an empty buffer. Its streaming compressor has seen no calls and uses quality 4, whatever quality the middleware was configured with. |
| BrotliResponder.CompressedHeaders | brotli_middleware.py:64-67 | One-shot headers: exactly one `Content-Encoding` entry, equal to "br"; exactly one `Content-Length` entry, equal to the decimal length of the compressed body; a `Vary` value containing `Accept-Encoding`. Every other header name keeps exactly its entries. |
| BrotliResponder.StreamingHeaders | brotli_middleware.py:74-77 | Streaming headers: exactly one `Content-Encoding` entry, equal to "br"; no `Content-Length` entry; a `Vary` value containing `Accept-Encoding`. Every other header name keeps exactly its entries. |
| BrotliResponder.FirstBody | brotli_middleware.py:53-86 | The first body emits the start message (same status), then one body message with the same `more_body` flag. It fails exactly when the body is final, at least `minimum_size` long, and one-shot compression raises. |
| BrotliResponder.LaterBody | brotli_middleware.py:88-100 | A later body emits exactly one body message with the same `more_body` flag. The buffer is empty afterwards. |
| BrotliResponder.Step | brotli_middleware.py:46-100 | Handles one message:<br>- A start message is stored as the held one and nothing is emitted; the rest of the state (configuration, started flag, compressor, buffer) is left exactly as it was.<br>- Any other message type is dropped.<br>- A body message emits one body message with its flag, preceded by the held start message (same status) when it is the first body.<br>- An empty buffer stays empty.<br>- A call fails exactly when the first body arrives with no start before it, or when one-shot compression raises. |
| BrotliResponder.Feed | brotli_middleware.py:46-100 | Over a whole series of messages, the emitted body messages carry exactly the received `more_body` flags, in order. |
| Headers.Get | brotli_middleware.py:19-20 | A lookup finds a value exactly when an entry with that name exists (names compared case-insensitively), and returns the first one. |
| Headers.Set | brotli_middleware.py:65-66 | After an assignment the key has exactly one entry, holding the new value, and every other name keeps its entries. |
| Headers.Delete | brotli_middleware.py:77 | After a deletion no entry with that name remains, and every other name keeps its entries. A missing name is not an error. |
| Headers.AddVary | brotli_middleware.py:67 | Afterwards there is exactly one `Vary` entry. Its value contains the token and extends any previous value followed by ", ". Every other name keeps its entries. |
| Strings.ContainsIsOccurs | brotli_middleware.py:20 | The substring scan succeeds exactly when the token occurs as a contiguous slice. |
| Strings.DecimalRoundTrip | brotli_middleware.py:66 | Reading back the decimal `Content-Length` text gives the length that was written. |
| Brotli.StoredCodecIsSound | brotli_middleware.py:35-37 | The round-trip guarantees assumed of the codec are satisfiable: a concrete codec meets them. |
| ResponseProperties.AfterStart | brotli_middleware.py:49-52 | The start message emits nothing; the interceptor only remembers it. |
| ResponseProperties.PassThrough | brotli_middleware.py:57-60 | A single final body shorter than `minimum_size` is passed on unchanged, and so is the start message and its headers. |
| ResponseProperties.SingleShot | brotli_middleware.py:61-70 | A single final body of at least `minimum_size` bytes is compressed once at the configured quality. The start message gets the one-shot headers, and its `Content-Length` reads back as the compressed length. The output fails exactly when compression raises. Under `Sound`, the emitted body decodes to the original body. |
| ResponseProperties.FirstStreamedChunk | brotli_middleware.py:71-86 | A first body announcing more body emits the start message with streaming headers, then exactly the compressor's `compress` + `flush` output for that chunk. The buffer is empty afterwards. |
| ResponseProperties.LaterChunk | brotli_middleware.py:88-100 | A later chunk emits exactly one body message holding the compressor's `compress` + `flush` output for that chunk, plus `finish` output when it is the last chunk. The buffer is empty afterwards, so no byte is emitted twice. |
| ResponseProperties.StreamTail | brotli_middleware.py:88-100 | A run of later chunks is emitted one for one with the same flags. Together the chunks are exactly the compressor's complete output: each chunk compressed and flushed in order, finished once. |
| ResponseProperties.StreamedBodies | brotli_middleware.py:71-100 | From the held start message, a streamed body run emits the start message with streaming headers, then one body per chunk, in order. Their bytes are the compressor's complete output. |
| ResponseProperties.Streamed | brotli_middleware.py:71-100 | A whole streamed response keeps its length and flags and gets streaming headers. Its body bytes are the complete stream for the chunks in order. Under `Sound` they decode to the concatenated input body. |
| ResponseProperties.ResponseShape | brotli_middleware.py:46-100 | Every well-formed response keeps its message count, emits the start message first with its status, and maps body messages one for one with their flags. It fails only when one-shot compression raises. |
| ResponseProperties.StreamCallsFacts | brotli_middleware.py:79 | The streaming calls made for a body run never finish the stream early, and they feed exactly the body bytes. |

## Behaviour worth knowing

Each item below is a fact about the code, and the model states it as the code does:

- On the two compressing paths (brotli_middleware.py:61-86) the code never looks at an existing `Content-Encoding`. A large or streamed body the application has already encoded is compressed again, and its header is overwritten with "br" (`BrotliResponder.CompressedHeaders`, `BrotliResponder.StreamingHeaders`). A small final body passes through untouched with its headers, whatever its encoding (`ResponseProperties.PassThrough`).
- `Accept-Encoding` is appended to `Vary` whatever `Vary` already holds. A response that already varies on it lists it twice, so the model states only that it is present (`Headers.AddVary`).
- Negotiation is a substring test on the raw `Accept-Encoding` value (brotli_middleware.py:20). Section 12.5.3 of RFC 9110 makes `br;q=0` a refusal of br. That request still gets a compressed response (`BrotliMiddleware.SubstringNegotiation`).
- The interceptor makes no ordering checks of its own (`BrotliResponder.Step`, `BrotliResponder.Feed`):
  - A body before any start message fails, `MissingStart`, because nothing usable is held (see "## Left out").
  - A second start message replaces the held one and emits nothing.
  - A message of any other type is dropped.
  - A body after the final body is handed to the streaming compressor again: `compress`, `flush` and possibly `finish` are called on a stream that has already been finished. What the compressor returns or raises then is the codec's behaviour, which the codec parameter leaves open.
- The streaming compressor always uses quality 4 (brotli_middleware.py:37), whatever quality the middleware was configured with (`BrotliResponder.NewResponder`).

## Left out

- `brotli_asgi/_import_resolver.py` and `setup.py`: module-loading and packaging plumbing with no behaviour of the middleware itself.
- The Brotli codec internals (`brotli.compress` and the `Compressor` methods): foreign code. They are a parameter of the model, constrained only by `Sound`. Failures of the streaming calls are not modelled; only one-shot compression can fail.
- Starlette's `Headers` / `MutableHeaders` internals: these are library code outside this model.
  - A header list is an ordered list of pairs.
  - Names compare after ASCII lower-casing, with no Unicode folding.
  - An assignment removes every entry with the name and appends one lower-cased entry at the end. Where Starlette places the entry is not modelled.
  - `add_vary_header` joins the first existing value with ", " and the token, and does not deduplicate.
- Headers.Set: states nothing about where in the list the new entry is placed.
- The asynchronous plumbing: `await`, `receive`, the `send` channel itself and `unattached_send` (brotli_middleware.py:103-104) become a pure function from the messages sent to the messages emitted. The debug `print` (brotli_middleware.py:96) has no effect on the model.
- The `gzip_fallback` (tests.py:109-140), `excluded_handlers` (tests.py:143-161), `mode`, `lgwin` and `lgblock` (tests.py:92-98) options exercised by the tests: the middleware does not implement them, so they are not modelled.
- BrotliResponder.Step: a body message before any start message is one failure, `MissingStart`.
  - In the code, the small-body path sends the empty `initial_message` dict on to the server.
  - The compressing paths raise a `KeyError` on its `headers`.
  - Both end the response abnormally, so the model does not tell them apart.
- BrotliResponder.Message: a start message always carries a header list. In the code, a start message without a `headers` key passes through on the small-body path. On the two compressing paths it raises a `KeyError` (brotli_middleware.py:64 and 74). The model treats the absent key as an empty list and compresses, so it does not model that failure.
- The response-level lemmas take well-formedness as a hypothesis: one start message, then body messages of which exactly the last is final. `Step` and `Feed` themselves are total. They model ill-formed series as the code runs them, except that a body before any start is the single failure `MissingStart` described above, and a compressor that raises after `finish` is not modelled.
- Python's own `bytes` size limits and the body's character encoding are not modelled. A body is a sequence of bytes of any length.

=== FILE: base.dfy ===
/** Shared vocabulary of the model: bytes, optional values and results. */
module Base {

  /** One octet of a response body. */
  newtype byte = b: int | 0 <= b < 0x100

  /** A Python `bytes` value. */
  type Bytes = seq<byte>

  /** A value that may be absent, as a Python default-`None` lookup. */
  datatype Option<T> = None | Some(value: T) {

    /** The value, or `default` when absent (Python's `dict.get(key, default)`). */
    function GetOr(default: T): T {
      if Some? then value else default
    }
  }

  /** The outcome of an operation that may raise instead of returning. */
  datatype Result<T, E> = Ok(value: T) | Err(error: E)
}

=== FILE: brotli.dfy ===
/** The Brotli library as the middleware sees it: a one-shot `compress`, an
    incremental `Compressor` with `compress` / `flush` / `finish`, and a
    decoder. The codec itself is foreign code, so it is a parameter of the
    model: a `Codec` record of functions, constrained by `Sound`, which states
    the round-trip guarantees the library gives. */
module Brotli {
  import opened Base

  /** Brotli's encoder mode hint. */
  datatype Mode = Generic | Text | Font

  /** The settings a streaming `Compressor` is created with. */
  datatype StreamParams = StreamParams(mode: Mode, quality: int, lgwin: int, lgblock: int)

  /** One call on a streaming compressor. */
  datatype StreamOp = Process(data: Bytes) | Flush | Finish

  /** A streaming compressor: its creation settings and every call made on
      it so far. Whatever internal state the library keeps is a function of
      these two, so the codec's answers may depend on all of it. */
  datatype Compressor = Compressor(params: StreamParams, history: seq<StreamOp>)

  /** The codec's behaviour.
      - `compress(body, quality)` is `brotli.compress`; `None` when the library
        raises (for instance on a quality it rejects);
      - `emit(params, history, op)` is the output of calling `op` on a
        compressor with these settings after the calls in `history`;
      - `decompress` is the Brotli decoder; `None` on malformed input. */
  datatype Codec = Codec(
    compress: (Bytes, int) -> Option<Bytes>,
    emit: (StreamParams, seq<StreamOp>, StreamOp) -> Bytes,
    decompress: Bytes -> Option<Bytes>)

  /** `Compressor(...)`: a compressor nothing has been fed yet. */
  function NewCompressor(params: StreamParams): Compressor {
    Compressor(params, [])
  }

  /** One call on the compressor: its new state and the bytes it returns. */
  function Apply(codec: Codec, s: Compressor, op: StreamOp): (Compressor, Bytes) {
    (Compressor(s.params, s.history + [op]), codec.emit(s.params, s.history, op))
  }

  /** A series of calls in order: the final state and all bytes returned,
      concatenated. */
  function Run(codec: Codec, s: Compressor, ops: seq<StreamOp>): (Compressor, Bytes)
    decreases |ops|
  {
    if ops == [] then (s, [])
    else
      var (s1, out1) := Apply(codec, s, ops[0]);
      var (s2, out2) := Run(codec, s1, ops[1..]);
      (s2, out1 + out2)
  }

  /** The bytes fed to the compressor by a series of calls. */
  function Input(ops: seq<StreamOp>): Bytes
    decreases |ops|
  {
    if ops == [] then []
    else (if ops[0].Process? then ops[0].data else []) + Input(ops[1..])
  }

  /** A series of calls that does not end the stream. */
  predicate Open(ops: seq<StreamOp>) {
    forall i :: 0 <= i < |ops| ==> !ops[i].Finish?
  }

  /** All bytes produced by `ops` followed by the closing `finish()`. */
  function Finished(codec: Codec, s: Compressor, ops: seq<StreamOp>): Bytes {
    Run(codec, s, ops + [Finish]).1
  }

  /** The guarantees of the Brotli library the middleware relies on:
      a one-shot compression decodes to its input, and a fresh compressor
      fed any chunks, flushed at any points and then finished produces a
      stream that decodes to the concatenation of the chunks. */
  ghost predicate Sound(codec: Codec) {
    && (forall body, quality | codec.compress(body, quality).Some? ::
          codec.decompress(codec.compress(body, quality).value) == Some(body))
    && (forall params, ops | Open(ops) ::
          codec.decompress(Finished(codec, NewCompressor(params), ops)) == Some(Input(ops)))
  }

  /** Running two series of calls one after the other is running their
      concatenation: outputs concatenate and the state threads through. */
  lemma {:induction false} RunAppend(codec: Codec, s: Compressor, a: seq<StreamOp>, b: seq<StreamOp>)
    ensures Run(codec, s, a + b).0 == Run(codec, Run(codec, s, a).0, b).0
    ensures Run(codec, s, a + b).1 == Run(codec, s, a).1 + Run(codec, Run(codec, s, a).0, b).1
    decreases |a|
  {
    if a == [] {
      assert a + b == b;
    } else {
      assert (a + b)[0] == a[0];
      assert (a + b)[1..] == a[1..] + b;
      RunAppend(codec, Apply(codec, s, a[0]).0, a[1..], b);
    }
  }

  /** A compressor remembers exactly the calls made on it. */
  lemma {:induction false} RunHistory(codec: Codec, s: Compressor, ops: seq<StreamOp>)
    ensures Run(codec, s, ops).0 == Compressor(s.params, s.history + ops)
    decreases |ops|
  {
    if ops != [] {
      RunHistory(codec, Apply(codec, s, ops[0]).0, ops[1..]);
      assert s.history + [ops[0]] + ops[1..] == s.history + ops;
    }
  }

  lemma {:induction false} InputAppend(a: seq<StreamOp>, b: seq<StreamOp>)
    ensures Input(a + b) == Input(a) + Input(b)
    decreases |a|
  {
    if a == [] {
      assert a + b == b;
    } else {
      assert (a + b)[1..] == a[1..] + b;
      InputAppend(a[1..], b);
    }
  }

  /** Bytes fed since the last flush or finish. */
  function Pending(history: seq<StreamOp>): Bytes
    decreases |history|
  {
    if history == [] then []
    else match history[|history| - 1]
      case Process(data) => Pending(history[..|history| - 1]) + data
      case _ => []
  }

  /** A stand-in codec that stores bytes unencoded: `compress` accepts the
      qualities 0 to 11, the streaming compressor holds input back until a
      flush or finish, and decoding is the identity. It exists to show that
      `Sound` can be met, so the round-trip lemmas do not rest on an
      impossible assumption. */
  function StoredCodec(): Codec {
    Codec(
      (body: Bytes, quality: int) => if 0 <= quality <= 11 then Some(body) else None,
      (params: StreamParams, history: seq<StreamOp>, op: StreamOp) =>
        if op.Process? then [] else Pending(history),
      (data: Bytes) => Some(data))
  }

  /** What the stored codec returns for one call. */
  lemma StoredEmit(params: StreamParams, history: seq<StreamOp>, op: StreamOp)
    ensures StoredCodec().emit(params, history, op) == if op.Process? then [] else Pending(history)
    ensures Pending(history + [op]) == if op.Process? then Pending(history) + op.data else []
  {
  }

  /** The first call of a series, separated from the rest. */
  lemma RunCons(codec: Codec, s: Compressor, op: StreamOp, rest: seq<StreamOp>)
    ensures Run(codec, s, [op] + rest)
         == (Run(codec, Apply(codec, s, op).0, rest).0,
             Apply(codec, s, op).1 + Run(codec, Apply(codec, s, op).0, rest).1)
  {
  }

  /** For the stored codec, the output so far plus what it still holds back
      is what it held back before plus every byte fed. */
  lemma {:induction false} StoredRun(params: StreamParams, history: seq<StreamOp>, ops: seq<StreamOp>)
    ensures Run(StoredCodec(), Compressor(params, history), ops).1 + Pending(history + ops)
            == Pending(history) + Input(ops)
    decreases |ops|
  {
    if ops == [] {
      assert history + ops == history;
    } else {
      var op := ops[0];
      var h1 := history + [op];
      assert h1 + ops[1..] == history + ops;
      StoredRun(params, h1, ops[1..]);
      StoredEmit(params, history, op);
      RunCons(StoredCodec(), Compressor(params, history), op, ops[1..]);
      assert [op] + ops[1..] == ops;
      assert Input(ops) == Input([op]) + Input(ops[1..]) by {
        InputAppend([op], ops[1..]);
      }
      var out := StoredCodec().emit(params, history, op);
      var rest := Run(StoredCodec(), Compressor(params, h1), ops[1..]).1;
      assert out + Pending(h1) == Pending(history) + Input([op]);
      Regroup(out, rest, Pending(history + ops), Pending(h1), Input(ops[1..]), Pending(history), Input([op]));
    }
  }

  /** The associativity step of `StoredRun`'s induction: the first call's
      output `out` is joined to the rest's output `rest` and to what stays
      held back `tail`, and the two equations for the first call and for
      the rest are chained into one. */
  lemma Regroup(out: Bytes, rest: Bytes, tail: Bytes, p1: Bytes, later: Bytes, p0: Bytes, fed: Bytes)
    requires rest + tail == p1 + later
    requires out + p1 == p0 + fed
    ensures (out + rest) + tail == p0 + (fed + later)
  {
    calc {
      (out + rest) + tail;
      out + (rest + tail);
      out + (p1 + later);
      (out + p1) + later;
      (p0 + fed) + later;
    }
  }

  /** The stored codec meets every guarantee `Sound` asks for. */
  lemma StoredCodecIsSound()
    ensures Sound(StoredCodec())
  {
    var c := StoredCodec();
    forall params, ops | Open(ops)
      ensures c.decompress(Finished(c, NewCompressor(params), ops)) == Some(Input(ops))
    {
      var s := NewCompressor(params);
      RunAppend(c, s, ops, [Finish]);
      RunHistory(c, s, ops);
      StoredRun(params, [], ops);
      assert [] + ops == ops;
      assert Pending([]) == [];
      assert Run(c, s, ops).1 + Pending(ops) == Input(ops);
      var last := Run(c, s, ops).0;
      assert last == Compressor(params, ops);
      assert Run(c, last, [Finish]).1 == c.emit(params, ops, Finish) + Run(c, Apply(c, last, Finish).0, []).1;
      assert Run(c, last, [Finish]).1 == Pending(ops);
      assert Finished(c, s, ops) == Input(ops);
    }
  }
}

=== FILE: headers.dfy ===
/** Response headers as the middleware manipulates them through Starlette's
    `Headers` / `MutableHeaders`: an ordered list of (name, value) pairs whose
    names compare case-insensitively. Only the four operations the middleware
    calls are modelled: lookup, set, delete and `add_vary_header`. */
module Headers {
  import opened Base
  import opened Strings

  type Header = (string, string)
  type HeaderList = seq<Header>

  const ContentEncoding := "Content-Encoding"
  const ContentLength := "Content-Length"
  const Vary := "Vary"
  const AcceptEncoding := "Accept-Encoding"

  /** Header names are compared after case folding. */
  predicate NameIs(name: string, key: string) {
    Lower(name) == Lower(key)
  }

  /** The entries named `key`, in their original order. Two header lists that
      agree on `Entries` for a name carry the same values for that name. */
  function Entries(h: HeaderList, key: string): HeaderList
    decreases |h|
  {
    if h == [] then []
    else (if NameIs(h[0].0, key) then [h[0]] else []) + Entries(h[1..], key)
  }

  lemma {:induction false} EntriesAppend(a: HeaderList, b: HeaderList, key: string)
    ensures Entries(a + b, key) == Entries(a, key) + Entries(b, key)
    decreases |a|
  {
    if a == [] {
      assert a + b == b;
    } else {
      assert (a + b)[1..] == a[1..] + b;
      EntriesAppend(a[1..], b, key);
    }
  }

  /** `headers.get(key)`: the value of the first entry named `key`. */
  function Get(h: HeaderList, key: string): (r: Option<string>)
    ensures r.None? <==> Entries(h, key) == []
    ensures r.Some? ==> r.value == Entries(h, key)[0].1
    decreases |h|
  {
    if h == [] then None
    else if NameIs(h[0].0, key) then Some(h[0].1)
    else Get(h[1..], key)
  }

  /** `del headers[key]`: removes every entry named `key`; a missing key is
      not an error. */
  function Delete(h: HeaderList, key: string): (r: HeaderList)
    ensures Entries(r, key) == []
    ensures forall k :: !NameIs(k, key) ==> Entries(r, k) == Entries(h, k)
    ensures |r| <= |h|
    decreases |h|
  {
    if h == [] then []
    else if NameIs(h[0].0, key) then Delete(h[1..], key)
    else [h[0]] + Delete(h[1..], key)
  }

  /** `headers[key] = value`: afterwards `key` has exactly one entry, holding
      `value` under the lower-cased name, and no other name is touched. */
  function Set(h: HeaderList, key: string, value: string): (r: HeaderList)
    ensures Entries(r, key) == [(Lower(key), value)]
    ensures Get(r, key) == Some(value)
    ensures forall k :: !NameIs(k, key) ==> Entries(r, k) == Entries(h, k)
  {
    var kept := Delete(h, key);
    var added: HeaderList := [(Lower(key), value)];
    LowerIdempotent(key);
    assert added[1..] == [] && NameIs(added[0].0, key);
    assert Entries(added, key) == added;
    assert forall k :: !NameIs(k, key) ==> Entries(kept + added, k) == Entries(h, k) by {
      forall k | !NameIs(k, key)
        ensures Entries(kept + added, k) == Entries(h, k)
      {
        EntriesAppend(kept, added, k);
        assert Entries(added, k) == [];
      }
    }
    EntriesAppend(kept, added, key);
    kept + added
  }

  /** `headers.add_vary_header(token)`: the first `Vary` value, if any, is
      joined with `token` by ", " and stored as the single `Vary` entry. */
  function AddVary(h: HeaderList, token: string): (r: HeaderList)
    ensures |Entries(r, Vary)| == 1
    ensures Get(r, Vary).Some? && Occurs(token, Get(r, Vary).value)
    ensures Get(h, Vary).Some? ==> Get(h, Vary).value + ", " <= Get(r, Vary).value
    ensures forall k :: !NameIs(k, Vary) ==> Entries(r, k) == Entries(h, k)
  {
    var merged := match Get(h, Vary)
      case Some(existing) => existing + ", " + token
      case None => token;
    OccursAtEnd(merged[..|merged| - |token|], token);
    assert merged[..|merged| - |token|] + token == merged;
    Set(h, Vary, merged)
  }
}

=== FILE: middleware.dfy ===
/** `BrotliMiddleware`: the ASGI entry point. For each connection it decides
    whether the application's `send` channel is wrapped by a fresh
    `BrotliResponder` or handed to the application untouched. */
module BrotliMiddleware {
  import opened Base
  import opened Strings
  import opened Headers
  import opened BrotliResponder
  import opened ResponseProperties

  /** The parts of an ASGI connection scope the middleware reads. */
  datatype Scope = Scope(kind: string, headers: HeaderList)

  /** How the application is invoked: with the server's own `send`, or with
      the given responder's `send_with_brotli`. */
  datatype Route = Direct | Wrapped(responder: Responder)

  /** `BrotliMiddleware(app)`: quality 4, minimum size 200 bytes. */
  const DefaultConfig := Config(4, 200)

  /** The request's `Accept-Encoding` value, or "" when it has none. */
  function RequestEncodings(scope: Scope): string {
    Get(scope.headers, AcceptEncoding).GetOr("")
  }

  /** Compression is engaged for HTTP connections whose `Accept-Encoding`
      contains "br" anywhere, as a substring. */
  ghost predicate Engaged(scope: Scope) {
    scope.kind == "http" && Occurs("br", RequestEncodings(scope))
  }

  /** `__call__`: the routing decision for one connection. */
  function Dispatch(config: Config, scope: Scope): (d: Route)
    ensures d.Wrapped? <==> Engaged(scope)
    ensures d.Wrapped? ==> d.responder == NewResponder(config)
  {
    ContainsIsOccurs(RequestEncodings(scope), "br");
    if scope.kind == "http" && Contains(RequestEncodings(scope), "br") then
      Wrapped(NewResponder(config))
    else
      Direct
  }

  /** The messages the server receives when the application sends `msgs`
      on this connection, or the failure raised on the way. */
  function Serve(codec: Brotli.Codec, config: Config, scope: Scope, msgs: seq<Message>)
    : (res: Result<seq<Message>, Failure>)
    ensures !Engaged(scope) ==> res == Ok(msgs)
    ensures Engaged(scope) ==>
              res == match Feed(codec, NewResponder(config), msgs)
                     case Ok(o) => Ok(o.emitted)
                     case Err(e) => Err(e)
    ensures res.Ok? ==> Flags(res.value) == Flags(msgs)
  {
    match Dispatch(config, scope)
    case Direct => Ok(msgs)
    case Wrapped(responder) =>
      match Feed(codec, responder, msgs)
      case Ok(out) => Ok(out.emitted)
      case Err(e) => Err(e)
  }

  /** The test is a substring test, not a parse of the header: a client that
      explicitly refuses Brotli with `br;q=0` still gets a compressed
      response, while a websocket connection never does. */
  lemma SubstringNegotiation(headers: HeaderList)
    requires Get(headers, AcceptEncoding) == Some("gzip, br;q=0")
    ensures Engaged(Scope("http", headers))
    ensures Dispatch(DefaultConfig, Scope("http", headers)) == Wrapped(NewResponder(DefaultConfig))
    ensures !Engaged(Scope("websocket", headers))
  {
    assert "gzip, br;q=0"[6..8] == "br";
    assert OccursAt("br", "gzip, br;q=0", 6);
  }

  /** A well-formed response on any connection: the server receives the
      start message first with its status, then one body message per body
      message sent, in order and with the same `more_body` flags. The only
      failure is a one-shot compression that raises on an engaged
      connection; a connection that is not engaged is never touched. */
  lemma ServedShape(codec: Brotli.Codec, config: Config, scope: Scope, msgs: seq<Message>)
    requires WellFormed(msgs)
    ensures var res := Serve(codec, config, scope, msgs);
            res.Ok? ==>
              var out := res.value;
              && |out| == |msgs|
              && out[0].Start? && out[0].status == msgs[0].status
              && (forall i :: 1 <= i < |out| ==> out[i].Body? && out[i].moreBody == msgs[i].moreBody)
    ensures Serve(codec, config, scope, msgs).Err? <==>
              && Engaged(scope)
              && |msgs| == 2 && |msgs[1].body| >= config.minimumSize
              && codec.compress(msgs[1].body, config.quality).None?
  {
    if Engaged(scope) {
      ResponseShape(codec, config, msgs);
    }
  }

  /** What a client of an engaged connection gets, by the first body
      message's path: a small final body arrives exactly as sent; with a
      sound codec, a large final body arrives compressed and decodes to the
      original, and a streamed body arrives as one stream that decodes to the
      concatenation of the chunks sent. */
  lemma ServedContent(codec: Brotli.Codec, config: Config, scope: Scope, msgs: seq<Message>)
    requires Engaged(scope) && WellFormed(msgs)
    ensures |msgs| == 2 && |msgs[1].body| < config.minimumSize ==>
              Serve(codec, config, scope, msgs) == Ok(msgs)
    ensures |msgs| == 2 && |msgs[1].body| >= config.minimumSize && Serve(codec, config, scope, msgs).Ok? ==>
              var out := Serve(codec, config, scope, msgs).value;
              && |out| == 2 && out[0].Start? && out[1].Body?
              && Get(out[0].headers, ContentEncoding) == Some("br")
              && (Brotli.Sound(codec) ==> codec.decompress(out[1].body) == Some(msgs[1].body))
    ensures |msgs| > 2 ==>
              && Serve(codec, config, scope, msgs).Ok?
              && var out := Serve(codec, config, scope, msgs).value;
                 && |out| == |msgs| && out[0].Start?
                 && Get(out[0].headers, ContentEncoding) == Some("br")
                 && Get(out[0].headers, ContentLength).None?
                 && (Brotli.Sound(codec) ==> codec.decompress(Payload(out)) == Some(Payload(msgs)))
  {
    if |msgs| > 2 {
      Streamed(codec, config, msgs);
    } else if |msgs[1].body| < config.minimumSize {
      PassThrough(codec, config, msgs);
    } else {
      SingleShot(codec, config, msgs);
    }
  }
}

=== FILE: properties.dfy ===
/** What the interceptor does to a whole well-formed response: one start
    message followed by body messages, every one but the last announcing
    more body. The three paths of the first body message (pass-through,
    one-shot compression, streaming) are stated separately, then combined. */
module ResponseProperties {
  import opened Base
  import opened Strings
  import opened Headers
  import opened Brotli
  import opened BrotliResponder

  /** A series of body messages in which exactly the last one ends the body. */
  predicate BodyRun(msgs: seq<Message>) {
    && |msgs| >= 1
    && forall i :: 0 <= i < |msgs| ==> msgs[i].Body? && (msgs[i].moreBody <==> i < |msgs| - 1)
  }

  /** The ASGI response protocol: a start message, then a body run. */
  predicate WellFormed(msgs: seq<Message>) {
    |msgs| >= 2 && msgs[0].Start? && BodyRun(msgs[1..])
  }

  /** The body bytes carried by `msgs`, concatenated in order. */
  function Payload(msgs: seq<Message>): Bytes
    decreases |msgs|
  {
    if msgs == [] then []
    else (if msgs[0].Body? then msgs[0].body else []) + Payload(msgs[1..])
  }

  /** The compressor calls the interceptor makes for one later body chunk. */
  function ChunkCalls(msg: Message): seq<StreamOp>
    requires msg.Body?
  {
    [Process(msg.body), Flush] + (if msg.moreBody then [] else [Finish])
  }

  /** The `compress` + `flush` calls for every body chunk of `msgs`, in order. */
  function StreamCalls(msgs: seq<Message>): seq<StreamOp>
    decreases |msgs|
  {
    if msgs == [] then []
    else (if msgs[0].Body? then [Process(msgs[0].body), Flush] else []) + StreamCalls(msgs[1..])
  }

  lemma {:induction false} StreamCallsFacts(msgs: seq<Message>)
    ensures Open(StreamCalls(msgs))
    ensures Input(StreamCalls(msgs)) == Payload(msgs)
    decreases |msgs|
  {
    if msgs != [] {
      StreamCallsFacts(msgs[1..]);
      var head: seq<StreamOp> := if msgs[0].Body? then [Process(msgs[0].body), Flush] else [];
      InputAppend(head, StreamCalls(msgs[1..]));
      assert Input(head) == if msgs[0].Body? then msgs[0].body else [] by {
        if msgs[0].Body? {
          assert head[1..] == [Flush] && head[1..][1..] == [];
        }
      }
    }
  }

  lemma {:induction false} PayloadAppend(a: seq<Message>, b: seq<Message>)
    ensures Payload(a + b) == Payload(a) + Payload(b)
    decreases |a|
  {
    if a == [] {
      assert a + b == b;
    } else {
      assert (a + b)[1..] == a[1..] + b;
      PayloadAppend(a[1..], b);
    }
  }

  /** The bytes of a start message followed by one body message. */
  lemma PayloadOfHead(start: Message, body: Message)
    requires start.Start? && body.Body?
    ensures Payload([start, body]) == body.body
  {
    assert [start, body][1..] == [body];
    assert [body][1..] == [];
    assert Payload([body]) == body.body + Payload([]);
    assert Payload([start, body]) == [] + Payload([body]);
  }

  lemma PayloadCons(m: Message, rest: seq<Message>)
    ensures Payload([m] + rest) == (if m.Body? then m.body else []) + Payload(rest)
  {
  }

  /** Driving the interceptor with a series is one step, then the rest. */
  lemma FeedStep(codec: Codec, r: Responder, msgs: seq<Message>, first: Output)
    requires msgs != [] && Step(codec, r, msgs[0]) == Ok(first)
    requires Feed(codec, first.next, msgs[1..]).Ok?
    ensures Feed(codec, r, msgs)
         == Ok(Output(Feed(codec, first.next, msgs[1..]).value.next,
                      first.emitted + Feed(codec, first.next, msgs[1..]).value.emitted))
  {
  }

  /** A later body chunk, with the scratch buffer empty as the interceptor
      leaves it, is emitted as exactly one body message with the same
      `more_body` flag, holding exactly the bytes the compressor returns for
      this chunk's `compress` and `flush` calls, followed by those of
      `finish` when it is the last chunk; the buffer is empty again after. */
  lemma LaterChunk(codec: Codec, r: Responder, msg: Message)
    requires r.started && r.buffer == [] && msg.Body?
    ensures Step(codec, r, msg)
         == Ok(Output(r.(stream := Run(codec, r.stream, ChunkCalls(msg)).0, buffer := []),
                      [Body(Run(codec, r.stream, ChunkCalls(msg)).1, msg.moreBody)]))
  {
    var calls := ChunkCalls(msg);
    var (s1, out1) := Apply(codec, r.stream, Process(msg.body));
    var (s2, out2) := Apply(codec, s1, Flush);
    RunCons(codec, r.stream, Process(msg.body), calls[1..]);
    assert [Process(msg.body)] + calls[1..] == calls;
    RunCons(codec, s1, Flush, calls[2..]);
    assert [Flush] + calls[2..] == calls[1..];
    if msg.moreBody {
      assert calls[2..] == [];
      assert Run(codec, r.stream, calls) == (s2, out1 + (out2 + []));
      assert r.buffer + (out1 + out2) == out1 + (out2 + []);
    } else {
      var (s3, out3) := Apply(codec, s2, Finish);
      RunCons(codec, s2, Finish, []);
      assert calls[2..] == [Finish] + [];
      assert Run(codec, r.stream, calls).1 == out1 + (out2 + (out3 + []));
      assert r.buffer + (out1 + out2) + out3 == out1 + (out2 + (out3 + []));
    }
  }

  /** Streaming start: a first body message announcing more body makes the
      interceptor emit the held start message with streaming headers, then
      one body message with the same flag holding exactly the bytes the
      compressor returns for this chunk's `compress` and `flush` calls. */
  lemma FirstStreamedChunk(codec: Codec, r: Responder, msg: Message)
    requires !r.started && r.pending.Some? && r.buffer == [] && msg.Body? && msg.moreBody
    ensures var (s, chunk) := Run(codec, r.stream, [Process(msg.body), Flush]);
            var start := r.pending.value;
            Step(codec, r, msg)
            == Ok(Output(r.(started := true, stream := s, buffer := []),
                         [Start(start.status, StreamingHeaders(start.headers)), Body(chunk, true)]))
  {
    var (s1, out1) := Apply(codec, r.stream, Process(msg.body));
    var (s2, out2) := Apply(codec, s1, Flush);
    RunCons(codec, r.stream, Process(msg.body), [Flush]);
    RunCons(codec, s1, Flush, []);
    assert [Flush] + [] == [Flush];
    assert Run(codec, r.stream, [Process(msg.body), Flush]) == (s2, out1 + (out2 + []));
    assert r.buffer + (out1 + out2) == out1 + (out2 + []);
    var start := r.pending.value;
    var r1 := r.(started := true);
    assert r1.buffer + (out1 + out2) == out1 + out2;
    assert Apply(codec, r1.stream, Process(msg.body)) == (s1, out1);
    assert Apply(codec, s1, Flush) == (s2, out2);
    assert !(|msg.body| < r1.config.minimumSize && !msg.moreBody) && msg.moreBody;
    assert FirstBody(codec, r.(started := true), start, msg)
        == Ok(Output(r.(started := true, stream := s2, buffer := []),
                     [Start(start.status, StreamingHeaders(start.headers)), Body(out1 + out2, true)]));
  }

  /** From a started interceptor with an empty buffer, a body run is emitted
      as a body run of the same length and flags, whose bytes together are
      the complete output of the streaming compressor: every chunk compressed
      and flushed in order, and the stream finished once at the end. */
  lemma {:induction false} StreamTail(codec: Codec, r: Responder, msgs: seq<Message>)
    requires r.started && r.buffer == [] && BodyRun(msgs)
    ensures Feed(codec, r, msgs).Ok?
    ensures var out := Feed(codec, r, msgs).value.emitted;
            && |out| == |msgs|
            && (forall i :: 0 <= i < |out| ==> out[i].Body? && out[i].moreBody == msgs[i].moreBody)
            && Payload(out) == Finished(codec, r.stream, StreamCalls(msgs))
    decreases |msgs|
  {
    var m := msgs[0];
    var rest := msgs[1..];
    LaterChunk(codec, r, m);
    var calls := ChunkCalls(m);
    var (s1, chunk) := Run(codec, r.stream, calls);
    var next := r.(stream := s1, buffer := []);
    assert Feed(codec, r, msgs) == match Feed(codec, next, rest)
      case Err(e) => Err(e)
      case Ok(o) => Ok(Output(o.next, [Body(chunk, m.moreBody)] + o.emitted));
    assert StreamCalls(msgs) == [Process(m.body), Flush] + StreamCalls(rest);
    if |msgs| == 1 {
      assert rest == [];
      assert Feed(codec, r, msgs).value.emitted == [Body(chunk, false)];
      PayloadCons(Body(chunk, false), []);
      assert calls == StreamCalls(msgs) + [Finish];
    } else {
      assert BodyRun(rest) by {
        forall i | 0 <= i < |rest|
          ensures rest[i].Body? && (rest[i].moreBody <==> i < |rest| - 1)
        {
          assert rest[i] == msgs[i + 1];
        }
      }
      StreamTail(codec, next, rest);
      var tail := Feed(codec, next, rest).value.emitted;
      var out := [Body(chunk, m.moreBody)] + tail;
      assert Feed(codec, r, msgs).value.emitted == out;
      forall i | 0 <= i < |out|
        ensures out[i].Body? && out[i].moreBody == msgs[i].moreBody
      {
        if i > 0 { assert out[i] == tail[i - 1]; }
      }
      PayloadCons(Body(chunk, m.moreBody), tail);
      assert calls == [Process(m.body), Flush];
      RunAppend(codec, r.stream, calls, StreamCalls(rest) + [Finish]);
      assert StreamCalls(msgs) + [Finish] == calls + (StreamCalls(rest) + [Finish]);
    }
  }

  /** The response before any message: a fresh interceptor given the start. */
  lemma AfterStart(codec: Codec, config: Config, msgs: seq<Message>)
    requires WellFormed(msgs)
    ensures var start: StartMessage := msgs[0];
            Feed(codec, NewResponder(config), msgs)
            == Feed(codec, NewResponder(config).(pending := Some(start)), msgs[1..])
  {
    var start: StartMessage := msgs[0];
    var r1 := NewResponder(config).(pending := Some(start));
    assert Step(codec, NewResponder(config), msgs[0]) == Ok(Output(r1, []));
    match Feed(codec, r1, msgs[1..])
    case Err(_) =>
    case Ok(o) => assert [] + o.emitted == o.emitted;
  }

  /** Threshold rule: a response whose whole body arrives in one message
      shorter than `minimum_size` is passed on unchanged, start message
      included. */
  lemma PassThrough(codec: Codec, config: Config, msgs: seq<Message>)
    requires WellFormed(msgs) && |msgs| == 2 && |msgs[1].body| < config.minimumSize
    ensures Feed(codec, NewResponder(config), msgs).Ok?
    ensures Feed(codec, NewResponder(config), msgs).value.emitted == msgs
  {
    AfterStart(codec, config, msgs);
    assert !msgs[1].moreBody;
    assert msgs[1..][1..] == [];
    assert msgs == [msgs[0], msgs[1]];
  }

  /** One-shot path: a response whose whole body arrives in one message of at
      least `minimum_size` bytes is compressed once, at the configured quality.
      The start message gets `Content-Encoding: br`, a `Content-Length` that
      a client reads back as the compressed length, and `Accept-Encoding` in
      `Vary`; every other header is kept. The compressed body decodes to the
      original one. If the compressor raises, nothing is emitted. */
  lemma SingleShot(codec: Codec, config: Config, msgs: seq<Message>)
    requires WellFormed(msgs) && |msgs| == 2 && |msgs[1].body| >= config.minimumSize
    ensures var res := Feed(codec, NewResponder(config), msgs);
            var compressed := codec.compress(msgs[1].body, config.quality);
            && (res.Err? <==> compressed.None?)
            && (res.Err? ==> res.error == CodecError)
            && (res.Ok? ==>
                  res.value.emitted
                  == [Start(msgs[0].status, CompressedHeaders(msgs[0].headers, |compressed.value|)),
                      Body(compressed.value, false)])
    ensures var res := Feed(codec, NewResponder(config), msgs);
            res.Ok? ==>
              var headers := res.value.emitted[0].headers;
              && Get(headers, ContentEncoding) == Some("br")
              && ParseDecimal(Get(headers, ContentLength).value) == Some(|res.value.emitted[1].body|)
              && Occurs(AcceptEncoding, Get(headers, Vary).value)
              && (forall k :: !NameIs(k, ContentEncoding) && !NameIs(k, ContentLength) && !NameIs(k, Vary)
                             ==> Entries(headers, k) == Entries(msgs[0].headers, k))
              && (Sound(codec) ==> codec.decompress(res.value.emitted[1].body) == Some(msgs[1].body))
  {
    AfterStart(codec, config, msgs);
    assert !msgs[1].moreBody;
    assert msgs[1..][1..] == [];
    var compressed := codec.compress(msgs[1].body, config.quality);
    if compressed.Some? {
      DecimalRoundTrip(|compressed.value|);
    }
  }

  /** The streaming path from the held start message on: a body run whose
      first message announces more body. */
  lemma {:induction false} StreamedBodies(codec: Codec, r: Responder, bodies: seq<Message>)
    requires !r.started && r.pending.Some? && r.buffer == []
    requires BodyRun(bodies) && |bodies| >= 2
    ensures Feed(codec, r, bodies).Ok?
    ensures var out := Feed(codec, r, bodies).value.emitted;
            && |out| == |bodies| + 1
            && out[0] == Start(r.pending.value.status, StreamingHeaders(r.pending.value.headers))
            && (forall i :: 1 <= i < |out| ==> out[i].Body? && out[i].moreBody == bodies[i - 1].moreBody)
            && Payload(out) == Finished(codec, r.stream, StreamCalls(bodies))
  {
    var first := bodies[0];
    var rest := bodies[1..];
    assert first.Body? && first.moreBody;
    var start := r.pending.value;
    var calls: seq<StreamOp> := [Process(first.body), Flush];
    var (s2, chunk) := Run(codec, r.stream, calls);
    var r2 := r.(started := true, stream := s2, buffer := []);
    var head := [Start(start.status, StreamingHeaders(start.headers)), Body(chunk, true)];
    FirstStreamedChunk(codec, r, first);
    assert BodyRun(rest) by {
      forall i | 0 <= i < |rest|
        ensures rest[i].Body? && (rest[i].moreBody <==> i < |rest| - 1)
      {
        assert rest[i] == bodies[i + 1];
      }
    }
    StreamTail(codec, r2, rest);
    FeedStep(codec, r, bodies, Output(r2, head));
    var tail := Feed(codec, r2, rest).value.emitted;
    ShiftedBodies(head, tail, bodies);
    StreamedPayload(codec, r.stream, bodies, head, tail);
  }

  lemma ShiftedBodies(head: seq<Message>, tail: seq<Message>, bodies: seq<Message>)
    requires |head| == 2 && |bodies| >= 1 && |tail| == |bodies| - 1
    requires forall i :: 0 <= i < |bodies| ==> bodies[i].Body?
    requires head[1].Body? && head[1].moreBody == bodies[0].moreBody
    requires forall i :: 0 <= i < |tail| ==> tail[i].Body? && tail[i].moreBody == bodies[i + 1].moreBody
    ensures forall i :: 1 <= i < |head + tail| ==>
              (head + tail)[i].Body? && (head + tail)[i].moreBody == bodies[i - 1].moreBody
  {
  }

  /** The streamed bytes: the first chunk's output, then the rest's. */
  lemma StreamedPayload(codec: Codec, s: Compressor, bodies: seq<Message>, head: seq<Message>, tail: seq<Message>)
    requires |bodies| >= 2 && bodies[0].Body?
    requires |head| == 2 && head[0].Start? && head[1].Body?
    requires head[1].body == Run(codec, s, [Process(bodies[0].body), Flush]).1
    requires Payload(tail)
          == Finished(codec, Run(codec, s, [Process(bodies[0].body), Flush]).0, StreamCalls(bodies[1..]))
    ensures Payload(head + tail) == Finished(codec, s, StreamCalls(bodies))
  {
    var calls: seq<StreamOp> := [Process(bodies[0].body), Flush];
    var rest := bodies[1..];
    PayloadAppend(head, tail);
    PayloadOfHead(head[0], head[1]);
    assert StreamCalls(bodies) == calls + StreamCalls(rest);
    RunAppend(codec, s, calls, StreamCalls(rest) + [Finish]);
    assert StreamCalls(bodies) + [Finish] == calls + (StreamCalls(rest) + [Finish]);
  }

  /** Streaming path: a response whose first body message announces more
      body. The start message gets `Content-Encoding: br`, loses any
      `Content-Length`, gets `Accept-Encoding` in `Vary`, and keeps every
      other header. Body messages are emitted one for one with the same
      flags; together they are the streaming compressor's complete output
      for the chunks in order, so they decode to the original body. */
  lemma Streamed(codec: Codec, config: Config, msgs: seq<Message>)
    requires WellFormed(msgs) && |msgs| > 2
    ensures Feed(codec, NewResponder(config), msgs).Ok?
    ensures var out := Feed(codec, NewResponder(config), msgs).value.emitted;
            && |out| == |msgs|
            && out[0] == Start(msgs[0].status, StreamingHeaders(msgs[0].headers))
            && (forall i :: 1 <= i < |out| ==> out[i].Body? && out[i].moreBody == msgs[i].moreBody)
            && Payload(out) == Finished(codec, NewCompressor(StreamingParams), StreamCalls(msgs))
            && (Sound(codec) ==> codec.decompress(Payload(out)) == Some(Payload(msgs)))
  {
    AfterStart(codec, config, msgs);
    var start: StartMessage := msgs[0];
    var bodies := msgs[1..];
    var r1 := NewResponder(config).(pending := Some(start));
    StreamedBodies(codec, r1, bodies);
    var out := Feed(codec, r1, bodies).value.emitted;
    ShiftedFlags(out, msgs);
    DropStart(msgs);
    StreamCallsFacts(msgs);
  }

  lemma ShiftedFlags(out: seq<Message>, msgs: seq<Message>)
    requires |msgs| >= 1 && |out| == |msgs|
    requires forall i :: 1 <= i < |out| ==>
               out[i].Body? && msgs[1..][i - 1].Body? && out[i].moreBody == msgs[1..][i - 1].moreBody
    ensures forall i :: 1 <= i < |out| ==> out[i].Body? && msgs[i].Body? && out[i].moreBody == msgs[i].moreBody
  {
    forall i | 1 <= i < |out|
      ensures out[i].Body? && msgs[i].Body? && out[i].moreBody == msgs[i].moreBody
    {
      assert msgs[1..][i - 1] == msgs[i];
    }
  }

  /** A leading start message carries no bytes and causes no compressor call. */
  lemma DropStart(msgs: seq<Message>)
    requires |msgs| >= 1 && msgs[0].Start?
    ensures StreamCalls(msgs) == StreamCalls(msgs[1..])
    ensures Payload(msgs) == Payload(msgs[1..])
  {
  }

  /** Every well-formed response: the start message is emitted exactly once,
      first, with its status; each body message is emitted as exactly one
      body message, in order, with its `more_body` flag. The only failure is
      a one-shot compression that raises, and then nothing is emitted. */
  lemma ResponseShape(codec: Codec, config: Config, msgs: seq<Message>)
    requires WellFormed(msgs)
    ensures var res := Feed(codec, NewResponder(config), msgs);
            res.Ok? ==>
              var out := res.value.emitted;
              && |out| == |msgs|
              && out[0].Start? && out[0].status == msgs[0].status
              && (forall i :: 1 <= i < |out| ==> out[i].Body? && out[i].moreBody == msgs[i].moreBody)
    ensures Feed(codec, NewResponder(config), msgs).Err? <==>
              && |msgs| == 2 && |msgs[1].body| >= config.minimumSize
              && codec.compress(msgs[1].body, config.quality).None?
  {
    if |msgs| > 2 {
      Streamed(codec, config, msgs);
    } else if |msgs[1].body| < config.minimumSize {
      PassThrough(codec, config, msgs);
    } else {
      SingleShot(codec, config, msgs);
    }
  }
}

=== FILE: responder.dfy ===
/** `BrotliResponder`: the per-request interceptor that sits on the
    application's `send` channel. It holds the `http.response.start` message
    back until the first body message shows which path to take, then emits
    the start message (possibly with rewritten headers) followed by the
    possibly compressed body, and compresses every later body chunk with the
    streaming compressor. */
module BrotliResponder {
  import opened Base
  import opened Strings
  import opened Headers
  import opened Brotli

  /** The middleware's options: `quality` and `minimum_size`. */
  datatype Config = Config(quality: int, minimumSize: int)

  /** An ASGI message the application sends. `Other` stands for any message
      type besides `http.response.start` and `http.response.body`. A body
      message without `body` or `more_body` keys is `Body([], false)`. */
  datatype Message =
    | Start(status: int, headers: HeaderList)
    | Body(body: Bytes, moreBody: bool)
    | Other(kind: string)

  type StartMessage = m: Message | m.Start? witness Start(200, [])

  /** Why a call of the interceptor raises.
      - `MissingStart`: a body message arrived before any start message
        (`initial_message` is still the empty dict);
      - `CodecError`: the one-shot Brotli compression raised. */
  datatype Failure = MissingStart | CodecError

  /** The interceptor's state: `pending` is `initial_message`, `started`
      whether the first body message has been seen, `stream` the streaming
      compressor and `buffer` the scratch `BytesIO`. */
  datatype Responder = Responder(
    config: Config,
    pending: Option<StartMessage>,
    started: bool,
    stream: Compressor,
    buffer: Bytes)

  /** What one call of the interceptor leaves behind: its next state and the
      messages it passed on to the server, in order. */
  datatype Output = Output(next: Responder, emitted: seq<Message>)

  /** The streaming compressor's settings. They are fixed, whatever quality
      the middleware was configured with. */
  const StreamingParams := StreamParams(Generic, 4, 22, 0)

  /** A responder as the middleware creates it for one request. */
  function NewResponder(config: Config): (r: Responder)
    ensures r.config == config && !r.started && r.pending.None? && r.buffer == []
    ensures r.stream.history == [] && r.stream.params.quality == 4
  {
    Responder(config, None, false, NewCompressor(StreamingParams), [])
  }

  /** The headers of a response compressed in one shot into `length` bytes. */
  function CompressedHeaders(h: HeaderList, length: nat): (r: HeaderList)
    ensures Get(r, ContentEncoding) == Some("br")
    ensures Get(r, ContentLength) == Some(Decimal(length))
    ensures |Entries(r, ContentEncoding)| == 1 && |Entries(r, ContentLength)| == 1
    ensures Get(r, Vary).Some? && Occurs(AcceptEncoding, Get(r, Vary).value)
    ensures forall k :: !NameIs(k, ContentEncoding) && !NameIs(k, ContentLength) && !NameIs(k, Vary)
                        ==> Entries(r, k) == Entries(h, k)
  {
    var h1 := Set(h, ContentEncoding, "br");
    var h2 := Set(h1, ContentLength, Decimal(length));
    var h3 := AddVary(h2, AcceptEncoding);
    DistinctNames();
    assert Entries(h3, ContentEncoding) == Entries(h2, ContentEncoding) == Entries(h1, ContentEncoding);
    assert Entries(h3, ContentLength) == Entries(h2, ContentLength);
    h3
  }

  /** The headers of a streamed compressed response: its length is unknown. */
  function StreamingHeaders(h: HeaderList): (r: HeaderList)
    ensures Get(r, ContentEncoding) == Some("br")
    ensures |Entries(r, ContentEncoding)| == 1
    ensures Get(r, ContentLength).None?
    ensures Get(r, Vary).Some? && Occurs(AcceptEncoding, Get(r, Vary).value)
    ensures forall k :: !NameIs(k, ContentEncoding) && !NameIs(k, ContentLength) && !NameIs(k, Vary)
                        ==> Entries(r, k) == Entries(h, k)
  {
    var h1 := Set(h, ContentEncoding, "br");
    var h2 := AddVary(h1, AcceptEncoding);
    var h3 := Delete(h2, ContentLength);
    DistinctNames();
    assert Entries(h3, ContentEncoding) == Entries(h2, ContentEncoding) == Entries(h1, ContentEncoding);
    assert Entries(h3, Vary) == Entries(h2, Vary);
    h3
  }

  /** The three header names the interceptor rewrites are different names. */
  lemma DistinctNames()
    ensures !NameIs(ContentEncoding, ContentLength) && !NameIs(ContentLength, ContentEncoding)
    ensures !NameIs(ContentEncoding, Vary) && !NameIs(Vary, ContentEncoding)
    ensures !NameIs(ContentLength, Vary) && !NameIs(Vary, ContentLength)
  {
  }

  /** The flags of the body messages among `msgs`, in order. */
  function Flags(msgs: seq<Message>): seq<bool>
    decreases |msgs|
  {
    if msgs == [] then []
    else (if msgs[0].Body? then [msgs[0].moreBody] else []) + Flags(msgs[1..])
  }

  lemma {:induction false} FlagsAppend(a: seq<Message>, b: seq<Message>)
    ensures Flags(a + b) == Flags(a) + Flags(b)
    decreases |a|
  {
    if a == [] {
      assert a + b == b;
    } else {
      assert (a + b)[1..] == a[1..] + b;
      FlagsAppend(a[1..], b);
    }
  }

  /** The first body message: pass-through, one-shot compression or the
      start of a compressed stream. `r` has already been marked started. */
  function FirstBody(codec: Codec, r: Responder, start: StartMessage, msg: Message): (res: Result<Output, Failure>)
    requires msg.Body?
    ensures res.Ok? ==>
              && |res.value.emitted| == 2
              && res.value.emitted[0].Start? && res.value.emitted[0].status == start.status
              && res.value.emitted[1].Body? && res.value.emitted[1].moreBody == msg.moreBody
              && res.value.next.started == r.started
              && (r.buffer == [] ==> res.value.next.buffer == [])
    ensures res.Err? <==>
              && !msg.moreBody && |msg.body| >= r.config.minimumSize
              && codec.compress(msg.body, r.config.quality).None?
    ensures res.Err? ==> res.error == CodecError
  {
    if |msg.body| < r.config.minimumSize && !msg.moreBody then
      Ok(Output(r, [start, msg]))
    else if !msg.moreBody then
      match codec.compress(msg.body, r.config.quality)
      case None => Err(CodecError)
      case Some(compressed) =>
        Ok(Output(r, [Start(start.status, CompressedHeaders(start.headers, |compressed|)),
                      Body(compressed, msg.moreBody)]))
    else
      var (s1, out1) := Apply(codec, r.stream, Process(msg.body));
      var (s2, out2) := Apply(codec, s1, Flush);
      var written := r.buffer + (out1 + out2);
      Ok(Output(r.(stream := s2, buffer := []),
                [Start(start.status, StreamingHeaders(start.headers)), Body(written, msg.moreBody)]))
  }

  /** A later body message of a streamed response: compress and flush the
      chunk, and finish the stream on the last one. */
  function LaterBody(codec: Codec, r: Responder, msg: Message): (o: Output)
    requires msg.Body?
    ensures |o.emitted| == 1 && o.emitted[0].Body? && o.emitted[0].moreBody == msg.moreBody
    ensures o.next.started == r.started && o.next.buffer == []
  {
    var (s1, out1) := Apply(codec, r.stream, Process(msg.body));
    var (s2, out2) := Apply(codec, s1, Flush);
    var written := r.buffer + (out1 + out2);
    var (s3, written') :=
      if msg.moreBody then (s2, written)
      else var (s3, out3) := Apply(codec, s2, Finish); (s3, written + out3);
    Output(r.(stream := s3, buffer := []), [Body(written', msg.moreBody)])
  }

  /** `send_with_brotli`: one message from the application.
      A start message is held back and nothing is emitted; a message of any
      other type is dropped. A body message emits exactly one body message
      carrying its `more_body` flag, preceded by the held start message when
      it is the first one. The call raises only for a first body with no
      start before it, or when one-shot compression raises. */
  function Step(codec: Codec, r: Responder, msg: Message): (res: Result<Output, Failure>)
    ensures msg.Start? ==> res == Ok(Output(r.(pending := Some(msg)), []))
    ensures msg.Other? ==> res == Ok(Output(r, []))
    ensures res.Ok? ==> Flags(res.value.emitted) == Flags([msg])
    ensures res.Ok? && msg.Body? ==>
              var out := res.value.emitted;
              && res.value.next.started
              && |out| == (if r.started then 1 else 2)
              && out[|out| - 1].Body?
              && (!r.started ==> r.pending.Some? && out[0].Start? && out[0].status == r.pending.value.status)
    ensures res.Ok? && msg.Body? && r.buffer == [] ==> res.value.next.buffer == []
    ensures res.Err? <==>
              && msg.Body? && !r.started
              && (|| r.pending.None?
                  || (&& !msg.moreBody && |msg.body| >= r.config.minimumSize
                      && codec.compress(msg.body, r.config.quality).None?))
    ensures res.Err? ==> res.error == (if r.pending.None? then MissingStart else CodecError)
  {
    assert Flags([msg]) == if msg.Body? then [msg.moreBody] else [];
    match msg
    case Start(_, _) => Ok(Output(r.(pending := Some(msg)), []))
    case Other(_) => Ok(Output(r, []))
    case Body(_, _) =>
      if r.started then
        var o := LaterBody(codec, r, msg);
        assert Flags(o.emitted) == [msg.moreBody];
        Ok(o)
      else if r.pending.None? then Err(MissingStart)
      else
        var res := FirstBody(codec, r.(started := true), r.pending.value, msg);
        assert res.Ok? ==> Flags(res.value.emitted) == [msg.moreBody] by {
          if res.Ok? {
            var e := res.value.emitted;
            assert e == [e[0]] + [e[1]];
            FlagsAppend([e[0]], [e[1]]);
          }
        }
        res
  }

  /** The interceptor driven by a whole series of messages: everything it
      emits, in order, or the failure that stopped it. The body messages it
      emits carry exactly the `more_body` flags of the body messages it
      received, in the same order. */
  function Feed(codec: Codec, r: Responder, msgs: seq<Message>): (res: Result<Output, Failure>)
    ensures res.Ok? ==> Flags(res.value.emitted) == Flags(msgs)
    decreases |msgs|
  {
    if msgs == [] then Ok(Output(r, []))
    else match Step(codec, r, msgs[0])
      case Err(e) => Err(e)
      case Ok(first) =>
        match Feed(codec, first.next, msgs[1..])
        case Err(e) => Err(e)
        case Ok(rest) =>
          FlagsAppend(first.emitted, rest.emitted);
          FlagsAppend([msgs[0]], msgs[1..]);
          assert [msgs[0]] + msgs[1..] == msgs;
          Ok(Output(rest.next, first.emitted + rest.emitted))
  }
}

=== FILE: strings.dfy ===
/** String helpers the middleware relies on: ASCII case folding for header
    names, Python's substring test `t in s`, and the decimal rendering of a
    length (`str(n)`) together with the reading a client applies to it. */
module Strings {
  import opened Base

  function LowerChar(c: char): char {
    if 'A' <= c <= 'Z' then (c as int + 32) as char else c
  }

  /** ASCII lower-casing, as header names are folded before comparison. */
  function Lower(s: string): (r: string)
    ensures |r| == |s|
    ensures forall i :: 0 <= i < |r| ==> !('A' <= r[i] <= 'Z')
    ensures forall i :: 0 <= i < |s| && !('A' <= s[i] <= 'Z') ==> r[i] == s[i]
  {
    seq(|s|, i requires 0 <= i < |s| => LowerChar(s[i]))
  }

  /** Folding twice is folding once, so a stored lower-case name matches its key. */
  lemma LowerIdempotent(s: string)
    ensures Lower(Lower(s)) == Lower(s)
  {
  }

  /** `t` occurs in `s` as a contiguous slice: the meaning of Python's `t in s`. */
  ghost predicate Occurs(t: string, s: string) {
    exists i :: OccursAt(t, s, i)
  }

  /** `t` occurs in `s` starting at position `i`. */
  predicate OccursAt(t: string, s: string, i: int) {
    0 <= i <= |s| - |t| && s[i..i + |t|] == t
  }

  /** A left-to-right scan for `t` inside `s`. */
  function Contains(s: string, t: string): bool
    decreases |s|
  {
    if |t| > |s| then false
    else if s[..|t|] == t then true
    else Contains(s[1..], t)
  }

  /** The scan finds `t` exactly when `t` occurs somewhere in `s`. */
  lemma {:induction false} ContainsIsOccurs(s: string, t: string)
    ensures Contains(s, t) <==> Occurs(t, s)
    decreases |s|
  {
    if |t| > |s| {
    } else if s[..|t|] == t {
      assert OccursAt(t, s, 0);
    } else {
      ContainsIsOccurs(s[1..], t);
      if Occurs(t, s) {
        var i :| OccursAt(t, s, i);
        assert i != 0;
        assert s[1..][i - 1..i - 1 + |t|] == s[i..i + |t|];
        assert OccursAt(t, s[1..], i - 1);
      }
      if Occurs(t, s[1..]) {
        var j :| OccursAt(t, s[1..], j);
        assert s[j + 1..j + 1 + |t|] == s[1..][j..j + |t|];
        assert OccursAt(t, s, j + 1);
      }
    }
  }

  /** A token appended at the end of a string occurs in it. */
  lemma OccursAtEnd(prefix: string, t: string)
    ensures Occurs(t, prefix + t)
  {
    var s := prefix + t;
    assert s[|prefix|..|prefix| + |t|] == t;
    assert OccursAt(t, s, |prefix|);
  }

  function DigitChar(d: nat): char
    requires d < 10
  {
    (d + '0' as int) as char
  }

  predicate IsDigits(s: string) {
    forall i :: 0 <= i < |s| ==> '0' <= s[i] <= '9'
  }

  /** Python's `str(n)` for a natural number. */
  function Decimal(n: nat): (s: string)
    ensures 1 <= |s| && IsDigits(s)
    ensures (s[0] == '0') == (n == 0)
  {
    if n < 10 then [DigitChar(n)] else Decimal(n / 10) + [DigitChar(n % 10)]
  }

  function DigitsValue(s: string): nat
    requires IsDigits(s)
    decreases |s|
  {
    if s == [] then 0
    else DigitsValue(s[..|s| - 1]) * 10 + (s[|s| - 1] as int - '0' as int)
  }

  /** A client's reading of a header value as a non-negative integer. */
  function ParseDecimal(s: string): Option<nat> {
    if s != [] && IsDigits(s) then Some(DigitsValue(s)) else None
  }

  /** Reading back a rendered length gives that length. */
  lemma {:induction false} DecimalRoundTrip(n: nat)
    ensures ParseDecimal(Decimal(n)) == Some(n)
  {
    var s := Decimal(n);
    if n < 10 {
      assert s == [DigitChar(n)] && s[..|s| - 1] == [];
      assert DigitsValue(s) == DigitsValue([]) * 10 + n;
    } else {
      DecimalRoundTrip(n / 10);
      assert s[..|s| - 1] == Decimal(n / 10);
      assert s[|s| - 1] as int - '0' as int == n % 10;
    }
  }
}
